=== FILE: README.md ===
# AudioRecords recording core in Dafny

This project models the bookkeeping at the centre of the AudioRecords iOS app, a screen for
recording, naming, listing, playing and deleting short audio clips. AVFoundation and UIKit
calls are abstracted away. Four pieces remain:

- **The recordings catalog** (`RecordingsDatabase`). It is an ordered list of
  `Recording(name, time, fileName)` plus `absoluteCount`, a count of recordings ever added.
  Both are mirrored into the user-defaults store on every mutation and reloaded at launch.
  The store is a map from keys to a small property-list `Value`
  (`Str | Dbl | Int | List | Dict | Other`). The database value carries its store, so each
  operation states what it saves. `Persisted` says the store reloads to exactly the
  in-memory catalog.
- **The stopwatch** (`DurationTimer`). It holds two optional endpoints. The clock reading is
  a parameter, and timestamps are opaque reals.
- **The recording draft lifecycle** (`RecordingSupport`). Start creates a draft named
  `"name"` with file name `"recording<absCount>.m4a"`. A failed stop discards the draft. A
  successful stop stamps the measured time and presents the naming alert. Submit adds the
  draft under the entered text, or under the placeholder `"Recording #<absCount+1>"` when the
  text is empty. Cancel drops the draft.
- **Playback flags and the button handlers** (`PlaybackSupport`, `ViewController`). These
  cover pause, resume and completion, the play/delete enablement predicate, and the
  record/stop, play/pause, delete and row-selection handlers.

The view controller's fields are the record `ControllerState.App`. `ViewController.Step`
applies one event to it: a button press, an alert action, a recorder callback or playback
completion. It yields `None` in two cases. The first is where the source would trap:
unwrapping a nil recorder or draft, or indexing past the list. The second is where the event
cannot be offered, such as an alert action with no alert. `Run` applies a sequence of
events.

The main results:

- `WellFormed` holds on a fresh install and is kept by every event.
  - The store always mirrors the catalog.
  - An open alert shows the next placeholder.
  - The selection is a real row.
  - Play and delete are disabled while recording.
  - No entry's file name equals another's or one the counter has yet to hand out.
- So, from a fresh install, no two catalog entries ever share a file name, even after
  deletions and relaunches (`FileNamesStayUnique`, `FileNamesStayUniqueAcrossLaunches`).
- The proof rests on decimal rendering of `Int` being injective. That is proved through a
  parser that inverts it (`Decimal`).
- Decoding the saved dictionaries returns the saved list (`DecodeEncode`, `SaveRecordings`).
- The counter never decreases (`ReplayCounter`, `RunCounterMonotone`).

Where the source has several revisions of one function, these are canonical:

- `Recording/RecordingSupport.swift` for the recording flow.
- `Recording/PlaybackSupport.swift` for playback.
- `Recording/RecordingViewController.swift` for the handlers and enablement.

The view controller's own older `stopRecording`/`nameRecording` are modelled separately as
`Legacy*`, and lemmas show where they diverge:

- The older `stopRecording` ignores `success` and always proceeds to naming.
- Its placeholder is `"Recording #<count>"`. This agrees with `"Recording #<absCount+1>"`
  only when `count == absCount + 1`.

The older revision's `Recording(url:)` initialiser does not match the `Recording` struct, so
the draft keeps a `fileName` in both revisions. The PlaybackSupport naming revision matches
the canonical one on the catalog and draft. It differs only in when it recomputes
enablement (`NamingRevisionsAgree`).

Behaviour of the code worth knowing:

- `removeRecording` refuses index 0 (`guard index > 0`), so the first entry can never be
  deleted. This quirk is kept and proved (`RemoveRecording`, `DeletePressed`).
- Decoding does not merely drop malformed entries. The cast of the stored array to
  `[[String:AnyObject]]` is all-or-nothing, so one non-dictionary element makes the whole list
  load as empty. Dictionaries lacking a well-typed `name`, `time` or `fileName` are skipped
  one at a time.
- Starting a recording does not stop playback: `RecordStopPressed` leaves `isPlaying` and
  `isPaused` as they were.
- A failed stop does not delete the draft's file. Only the naming alert's cancel action does.
- A duration is not guaranteed non-negative. It is `endTime - startTime` of whatever
  endpoints are set. After a second `start()` it is computed from the stale `endTime`.
- After the recorder's finish callback reports failure, `isRecording` stays true with no
  recorder. The next record/stop press would then call `stop()` on a nil recorder. `Step`
  yields `None` for that press (`FailedFinishThenPressTraps`).

## Model

| member | source | states |
|---|---|---|
| Decimal.NatToString | Recording/RecordingSupport.swift:34 | the interpolated magnitude is a non-empty string of decimal digits with no leading zero unless it is 0 |
| Decimal.ParseIntToString | Recording/RecordingSupport.swift:34 | reading back an interpolated Int gives the same Int |
| Decimal.IntToString | Recording/RecordingSupport.swift:34 | an interpolated Int is non-empty and starts with '-' exactly when it is negative |
| Decimal.IntToStringInjective | Recording/RecordingSupport.swift:34 | two Ints interpolate to the same text exactly when they are equal |
| DurationTimer.Duration | Recording/DurationTimer.swift:15-21 | a duration exists iff both endpoints are set, and then start plus duration is the end |
| DurationTimer.NewTimer | Recording/DurationTimer.swift:11-13 | a new timer has neither a start nor an end time, so it reports no duration |
| DurationTimer.Start | Recording/DurationTimer.swift:23-25 | start overwrites only the start time; a duration is then reported iff an old end time exists |
| DurationTimer.Stop | Recording/DurationTimer.swift:27-29 | stop overwrites only the end time; the duration is then the new end minus the start, if a start exists |
| DurationTimer.StopWithoutStart | Recording/DurationTimer.swift:15-29 | stopping a timer that was never started leaves the duration absent |
| DurationTimer.StartThenStopMeasures | Recording/DurationTimer.swift:15-29 | start at a then stop at b reports exactly b - a |
| DurationTimer.RestartReportsStaleDuration | Recording/DurationTimer.swift:15-25 | a second start before the next stop still reports a duration, computed from the stale end |
| RecordingsDatabase.CountRecordings | Recording/RecordingsDatabase.swift:25-31 | the count equals the length of the list returned by getRecordings |
| RecordingsDatabase.GetRecordings | Recording/RecordingsDatabase.swift:29-31 | the list handed out is the catalog itself, in order |
| RecordingsDatabase.AbsCount | Recording/RecordingsDatabase.swift:33-35 | returns the in-memory counter, which is loaded from the store at launch (its growth by one per add is `ReplayCounter`) |
| RecordingsDatabase.AddRecording | Recording/RecordingsDatabase.swift:37-42 | the new entry is last, earlier entries are unchanged in order, the counter rises by one, the store reloads to the new catalog, other keys untouched |
| RecordingsDatabase.RemoveRecording | Recording/RecordingsDatabase.swift:44-48 | for 0 < index < count exactly that entry goes (order kept, multiset minus one); otherwise nothing changes, index 0 included; the counter is untouched; persistence and distinct file names are kept |
| RecordingsDatabase.RemoveAt | Recording/RecordingsDatabase.swift:46 | removing at an index shortens the list by one, keeps the entries before it and shifts later entries down by one |
| RecordingsDatabase.RemoveAtFacts | Recording/RecordingsDatabase.swift:46 | removing at an index removes exactly one occurrence of that entry and keeps file names distinct |
| RecordingsDatabase.EncodeRecording | Recording/RecordingsDatabase.swift:53-57 | each saved dictionary decodes back to the entry it was made from |
| RecordingsDatabase.EncodeList | Recording/RecordingsDatabase.swift:51-59 | the saved array has one dictionary per entry, in order, each decoding back to its entry |
| RecordingsDatabase.SaveRecordings | Recording/RecordingsDatabase.swift:50-61 | after saving, loading the list gives the in-memory list; other keys unchanged |
| RecordingsDatabase.SaveAbsoluteCount | Recording/RecordingsDatabase.swift:63-65 | after saving, loading the counter gives the in-memory counter; other keys unchanged |
| RecordingsDatabase.DecodeRecording | Recording/RecordingsDatabase.swift:71-74 | an entry is produced exactly from a dictionary with a string name, a double time and a string fileName, and carries those values |
| RecordingsDatabase.DecodeOne | Recording/RecordingsDatabase.swift:71-75 | one dictionary contributes at most one entry: none exactly when it is malformed, otherwise the entry it decodes to |
| RecordingsDatabase.DecodeEntries | Recording/RecordingsDatabase.swift:69-77 | no more entries than dictionaries; all well-formed means one entry per dictionary in order; none well-formed means empty |
| RecordingsDatabase.DecodeEntriesAppend | Recording/RecordingsDatabase.swift:69-77 | decoding a concatenation is the concatenation of the decodings, so kept entries stay in their original order |
| RecordingsDatabase.LoadSavedRecordings | Recording/RecordingsDatabase.swift:67-78 | a missing key, a non-list value or a list with a non-dictionary element loads as the empty list; a list of dictionaries loads as its well-formed entries, in order |
| RecordingsDatabase.DecodeEncode | Recording/RecordingsDatabase.swift:50-78 | decoding what saveRecordings writes yields the same list: names, times, file names and order |
| RecordingsDatabase.TruncateToInt | Recording/RecordingsDatabase.swift:80-82 | a stored double converts to the integer next to it toward zero |
| RecordingsDatabase.LoadAbsoluteCount | Recording/RecordingsDatabase.swift:80-82 | the counter loads as 0 when nothing or nothing numeric is stored, as the stored integer when there is one, and as a stored double truncated toward zero |
| RecordingsDatabase.Load | Recording/RecordingsDatabase.swift:11-15 | the catalog loaded at launch is persisted and keeps its store |
| RecordingsDatabase.ReloadRestores | Recording/RecordingsDatabase.swift:11-15 | relaunching from the store of a persisted catalog gives back that catalog |
| RecordingsDatabase.ReplayCounter | Recording/RecordingsDatabase.swift:33-48 | over any sequence of adds and removes the counter grows by exactly the number of adds, so never decreases |
| RecordingsDatabase.ReplayPersisted | Recording/RecordingsDatabase.swift:37-48 | any sequence of adds and removes from a persisted catalog ends persisted |
| ControllerState.ConfigurePlaySettings | Recording/RecordingViewController.swift:73-77 | play and delete are enabled exactly when not recording and a row is selected; nothing else changes |
| ControllerState.Launch | Recording/RecordingViewController.swift:40-77 | the screen starts with the stored catalog, no draft, no alert, nothing recording or playing, buttons disabled, no row selected, no file on the player, and a stopwatch with neither endpoint set |
| ControllerState.NumberOfRows | Recording/RecordingViewController.swift:220-222 | the table has exactly as many rows as the catalog has entries |
| ControllerState.ReloadTable | Recording/RecordingViewController.swift:236-238 | reloading clears the selection and nothing else |
| RecordingSupport.FileName | Recording/RecordingSupport.swift:34 | a file name is "recording", then text that reads back as the counter, then ".m4a" |
| RecordingSupport.FileNameInjective | Recording/RecordingSupport.swift:34 | two counter values give the same file name exactly when they are equal |
| RecordingSupport.StartRecording | Recording/RecordingSupport.swift:32-53 | the draft is "name", time 0, file name from the current counter; the stopwatch start is now; the recorder exists; nothing else changes |
| RecordingSupport.StopRecording | Recording/RecordingSupport.swift:55-70 | the recorder is released and the stopwatch stopped; failure clears the draft and adds nothing; success sets the draft's time to the measured duration when there is one and presents the placeholder for absCount + 1 |
| RecordingSupport.ReleaseRecorder | Recording/RecordingSupport.swift:56-59 | the recorder is gone and the stopwatch stopped at now; nothing else changes |
| RecordingSupport.StampDraft | Recording/RecordingSupport.swift:66-68 | a draft takes the stopwatch's duration when there is one and keeps its time otherwise; no draft is created; nothing else changes |
| RecordingSupport.Placeholder | Recording/RecordingSupport.swift:81 | the placeholder is "Recording #" followed by text that reads back as absCount + 1 |
| RecordingSupport.NameRecording | Recording/RecordingSupport.swift:78-106 | the alert shows "Recording #" with absCount + 1, and enablement is recomputed |
| RecordingSupport.AudioRecorderDidFinishRecording | Recording/RecordingSupport.swift:72-76 | a successful finish changes nothing; a failed one acts as a failed stop: draft gone, catalog unchanged |
| RecordingSupport.EnteredName | Recording/RecordingSupport.swift:85 | empty text gives the placeholder, any other text is used as is |
| RecordingSupport.SubmitName | Recording/RecordingSupport.swift:83-91 | the draft is appended under the entered name with its file name and time unchanged and the counter bumped, then cleared; with no draft the catalog is unchanged |
| RecordingSupport.CancelNaming | Recording/RecordingSupport.swift:92-100 | the draft is cleared; catalog, counter and selection unchanged |
| RecordingSupport.StartKeepsFresh | Recording/RecordingSupport.swift:32-37 | after start the draft holds exactly the counter's next file name and entries stay fresh |
| RecordingSupport.StopKeepsFresh | Recording/RecordingSupport.swift:55-70 | stopping, successful or not, keeps file names fresh |
| RecordingSupport.SubmitKeepsFresh | Recording/RecordingSupport.swift:83-91 | committing the draft keeps entry file names pairwise distinct and ahead of the counter |
| RecordingSupport.CancelKeepsFresh | Recording/RecordingSupport.swift:92-100 | cancelling keeps file names fresh |
| RecordingSupport.EmptySubmissionUsesPlaceholder | Recording/RecordingSupport.swift:81-89 | an empty submission names the new entry "Recording #" followed by absCount + 1 |
| PlaybackSupport.PlaybackFileName | Recording/PlaybackSupport.swift:56 | the played file belongs to an entry of the catalog, and with distinct file names only to the entry at that index |
| PlaybackSupport.ResumePlayback | Recording/PlaybackSupport.swift:79-82 | isPaused becomes false; isPlaying and everything else unchanged |
| PlaybackSupport.PausePlayback | Recording/PlaybackSupport.swift:84-87 | isPaused becomes true; isPlaying and everything else unchanged |
| PlaybackSupport.FinishPlayback | Recording/PlaybackSupport.swift:89-93 | completion clears both isPlaying and isPaused from any state, nothing else |
| PlaybackSupport.FinishFromAnyState | Recording/PlaybackSupport.swift:59-93 | completion after a pause or a resume lands in the same state as completion alone, and is idempotent |
| PlaybackSupport.PauseResumeRoundTrip | Recording/PlaybackSupport.swift:79-87 | pause then resume (or resume then pause) restores the state |
| PlaybackSupport.NameRecording | Recording/PlaybackSupport.swift:16-44 | this revision's alert shows the same placeholder for absCount + 1 |
| PlaybackSupport.SubmitName | Recording/PlaybackSupport.swift:21-30 | this revision appends the named draft (or nothing without a draft), clears it, and recomputes enablement |
| PlaybackSupport.CancelNaming | Recording/PlaybackSupport.swift:31-39 | this revision clears the draft and leaves the catalog unchanged |
| PlaybackSupport.NamingRevisionsAgree | Recording/PlaybackSupport.swift:16-44 | both naming revisions give the same placeholder, the same state after submit apart from enablement, and the same state after cancel |
| ViewController.RecordStopPressed | Recording/RecordingViewController.swift:82-95 | isRecording flips; the stop path stops the stopwatch, stamps the draft with now minus the start time and presents naming; the start path starts the stopwatch, creates the draft and leaves any open alert as it is; enablement is recomputed so play and delete are off while recording; playback flags and the played file unchanged |
| ViewController.PressToStop | Recording/RecordingViewController.swift:83-94 | the stop branch: not recording, no recorder, stopwatch stopped, draft stamped with now minus the start time, naming alert open, enablement recomputed, catalog and playback unchanged |
| ViewController.PressToStart | Recording/RecordingViewController.swift:88-94 | the start branch: recording with a recorder, stopwatch started, a fresh draft for the counter's file name, play and delete off; catalog, playback and any open alert unchanged |
| ViewController.PlayPausePressed | Recording/RecordingViewController.swift:97-110 | a no-op when disabled; while playing clears isPlaying; otherwise plays the selected row's file and sets isPlaying, or does nothing without a selection |
| ViewController.DeletePressed | Recording/RecordingViewController.swift:112-118 | a no-op when disabled or unselected; otherwise removes through the catalog's guard and reloads, so the first entry survives and at most one entry goes |
| ViewController.SelectRow | Recording/RecordingViewController.swift:232-234 | selecting a row enables play and delete exactly when not recording |
| ViewController.LegacyPlaceholder | Recording/RecordingViewController.swift:160 | the older placeholder is "Recording #" followed by text that reads back as the number of entries |
| ViewController.LegacyNameRecording | Recording/RecordingViewController.swift:157-184 | the older alert's placeholder uses the current number of entries |
| ViewController.LegacyStopRecording | Recording/RecordingViewController.swift:146-155 | the older stop, whatever success says, stops the stopwatch, stamps the draft with now minus the start time exactly as a successful current stop does, and presents its naming alert; nothing else changes |
| ViewController.LegacyStopIgnoresFailure | Recording/RecordingViewController.swift:146-155 | on failure the older stop keeps the draft while the current one discards it |
| ViewController.LegacyPlaceholderDiffers | Recording/RecordingViewController.swift:160 | the older and current placeholders agree exactly when count equals absCount + 1 |
| ViewController.Step | Recording/RecordingViewController.swift:82-118 | each event applies its handler; record/stop traps exactly when recording with no recorder, play/pause exactly when enabled, idle and the selected row does not exist, a failed finish exactly when there is no recorder, submit and cancel without an alert are not offered, cancel with an alert but no draft traps, a row outside the table cannot be selected; delete, pause, resume and completion always apply |
| ViewController.LaunchWellFormed | Recording/RecordingViewController.swift:40-77 | a launch with no saved list starts in a well-formed state |
| ViewController.StepKeepsWellFormed | Recording/RecordingViewController.swift:73-118 | every event keeps the state well formed, and play/pause and delete never trap in a well-formed state |
| ViewController.RunKeepsWellFormed | Recording/RecordingViewController.swift:82-118 | every event sequence keeps the state well formed |
| ViewController.FileNamesStayUnique | Recording/RecordingSupport.swift:34 | from a fresh install no two catalog entries ever share a file name, whatever is recorded, cancelled or deleted |
| ViewController.StepCounterMonotone | Recording/RecordingsDatabase.swift:33-48 | no event lowers the counter |
| ViewController.RunCounterMonotone | Recording/RecordingsDatabase.swift:33-48 | no event sequence lowers the counter |
| ViewController.RecordAndSubmitEmpty | Recording/RecordingSupport.swift:32-91 | record, stop, submit "" appends one entry named with absCount + 1, with the counter's file name and the measured time; earlier entries stay, and the counter rises by one |
| ViewController.RecordThenStopDraft | Recording/RecordingSupport.swift:32-70 | record then stop leaves the catalog as it was and the naming alert open, with a draft carrying the counter's file name and the measured time |
| ViewController.StopPressStampsDraft | Recording/RecordingViewController.swift:83-87 | a stop press while recording opens the alert over the draft stamped with the time since the stopwatch started |
| ViewController.SubmitAppendsDraft | Recording/RecordingSupport.swift:83-89 | submitting appends the draft, named as entered, after the existing entries and moves the counter on by one |
| ViewController.RecordThenFailure | Recording/RecordingSupport.swift:55-76 | record, then a failed recorder finish, leaves the catalog and counter as before, with no draft |
| ViewController.FailedFinishThenPressTraps | Recording/RecordingSupport.swift:55-76 | record, a failed recorder finish, then another record/stop press traps on the nil recorder |
| ViewController.RelaunchWellFormed | Recording/RecordingsDatabase.swift:11-15 | relaunching from the store of a well-formed screen restores its catalog and counter and is well formed |
| ViewController.SessionsKeepWellFormed | Recording/RecordingsDatabase.swift:11-48 | any number of app lifetimes, each ending in a relaunch from the store, keep the state well formed |
| ViewController.FileNamesStayUniqueAcrossLaunches | Recording/RecordingSupport.swift:34 | from a fresh install, across any number of relaunches and any events after the last, no two catalog entries share a file name |

## Left out

- AVFoundation is not modelled: the audio session, its permission request, `AVAudioRecorder`,
  `AVAudioEngine`, `AVAudioPlayerNode` and `AVAudioFile`. A recorder is represented only by
  whether it exists, and playback only by the file scheduled on the player.
- UIKit is not modelled: alert controllers, text fields, button images and table cells. The
  alert's choice and its text are event inputs.
- `ReloadTable` assumes, as UIKit does, that `reloadData` clears the table selection.
- `DurationTimer.formatTime` is left out. It wraps `DateComponentsFormatter`, whose padding
  and truncation rules are not in the source.
- The clock and its values are not modelled. `CFAbsoluteTimeGetCurrent` readings are real
  parameters.
- Duration: Swift's floating-point subtraction is modelled as exact subtraction of reals.
- File-system effects are opaque: the documents directory, `generateFilePath`, deleting the
  draft's file on cancel, and `numberOfDocumentsInDirectory`.
- The naming alert is modal in the app, but the model does not block the buttons and row
  selection while it is open. This only adds reachable states, so the invariants still cover the app.
- `DispatchQueue.main.async` hops are not modelled. Playback completion is an ordinary event.
- The view controller's older `playRecording(index:)` is not modelled separately. The
  play/pause handler calls it, but the model uses the `startPlayback` revision in
  Recording/PlaybackSupport.swift. The older one reads the entry's `url` rather than its
  `fileName`, and schedules the file without a completion handler
  (Recording/RecordingViewController.swift:198), so on that path playback never reports
  completion. `startPlayback` installs one that calls `finishPlayback`
  (Recording/PlaybackSupport.swift:59-64); the `PlaybackCompleted` event models that revision.
- `isPaused` is used by the playback extension but is not declared in
  Recording/RecordingViewController.swift. The file declaring it is not part of this model.
  It is modelled as a field of the same state.
- `configurePlayUISettings` is called at Recording/RecordingSupport.swift:105 and
  Recording/PlaybackSupport.swift:28. It is not defined in the files modelled, and is taken
  to be `configurePlaySettings`.
- StartRecording: does not model a failing `AVAudioRecorder` initialiser. On that path the
  source calls `stopRecording` on a nil recorder, which traps.
- AddRecording: the counter is an unbounded integer. Swift's `Int` would trap on overflow
  past 2^63 - 1.
- DecodeRecording: an integer-valued `time` counts as ill-typed. Foundation's `NSNumber`
  bridging may accept it as a `Double`.
- LoadAbsoluteCount: a stored string loads as 0. `integer(forKey:)` would parse a numeric
  string.

=== FILE: controller_state.dfy ===
/**
  The state the recording screen's view controller keeps: the catalog,
  the recording draft and recorder, the stopwatch, the playback flags, the
  table selection, the enablement of the play and delete buttons, and the
  naming alert when one is on screen. UI objects themselves are not
  modelled; only what the controller's logic reads and writes.
*/
module ControllerState {
  import opened Wrappers
  import opened DurationTimer
  import opened RecordingsDatabase

  datatype App = App(
    db: Database,
    /** `newRecording`: the draft between start and naming. */
    newRecording: Option<Recording>,
    /** `audioRecorder != nil`. */
    recorderActive: bool,
    stopTimer: Timer,
    isRecording: bool,
    isPlaying: bool,
    isPaused: bool,
    /** The file last scheduled on the player node, if any. */
    playerFile: Option<string>,
    /** `indexPathForSelectedRow?.row`. */
    selectedRow: Option<int>,
    /** `playButton.isEnabled`, always set together with `deleteButton.isEnabled`. */
    controlsEnabled: bool,
    /** The naming alert, when presented, with the placeholder it shows. */
    namingPrompt: Option<string>)

  /** `configurePlaySettings`: play and delete enabled iff not recording and a row is selected. */
  function ConfigurePlaySettings(a: App): (r: App)
    ensures r.controlsEnabled <==> !a.isRecording && a.selectedRow.Some?
    ensures r.(controlsEnabled := a.controlsEnabled) == a
  {
    a.(controlsEnabled := !a.isRecording && a.selectedRow.Some?)
  }

  /** The screen after `viewDidLoad`: catalog loaded, everything idle. */
  function Launch(store: Store): (a: App)
    ensures a.db == Load(store) && Persisted(a.db)
    ensures a.newRecording.None? && !a.recorderActive && a.namingPrompt.None?
    ensures !a.isRecording && !a.isPlaying && !a.isPaused && !a.controlsEnabled
    ensures a.selectedRow.None? && a.playerFile.None?
    ensures a.stopTimer.startTime.None? && a.stopTimer.endTime.None?
    ensures Duration(a.stopTimer).None?
  {
    ConfigurePlaySettings(App(Load(store), None, false, NewTimer(), false, false, false, None, None, false, None))
  }

  /** The table's `numberOfRowsInSection`: one row per catalog entry. */
  function NumberOfRows(a: App): (n: nat)
    ensures n == CountRecordings(a.db) && n == |GetRecordings(a.db)|
  {
    |a.db.recordings|
  }

  /** `reloadData`, which also drops the table's selection. */
  function ReloadTable(a: App): (r: App)
    ensures r.selectedRow.None? && r.(selectedRow := a.selectedRow) == a
  {
    a.(selectedRow := None)
  }
}

=== FILE: decimal.dfy ===
/**
  Decimal rendering of integers, as Swift's string interpolation `"\(n)"`
  produces it for an `Int`: an optional leading '-', then the digits of the
  magnitude without leading zeros. File names and name placeholders are
  built this way, so their uniqueness rests on this rendering being
  injective, which is proved here through a parser that inverts it.
*/
module Decimal {
  import opened Wrappers

  predicate IsDigit(c: char) {
    '0' <= c <= '9'
  }

  predicate AllDigits(s: string) {
    forall i :: 0 <= i < |s| ==> IsDigit(s[i])
  }

  function DigitValue(c: char): (d: nat)
    requires IsDigit(c)
    ensures d < 10
  {
    c as int - '0' as int
  }

  function DigitChar(d: nat): (c: char)
    requires d < 10
    ensures IsDigit(c) && DigitValue(c) == d
  {
    (d + '0' as int) as char
  }

  /** The digits of `n`, most significant first. */
  function NatToString(n: nat): (s: string)
    ensures 1 <= |s| && AllDigits(s)
    ensures s[0] == '0' ==> n == 0
    decreases n
  {
    if n < 10 then [DigitChar(n)]
    else NatToString(n / 10) + [DigitChar(n % 10)]
  }

  /** The value of a string of digits, read most significant first. */
  function ParseDigits(s: string): nat
    requires AllDigits(s)
    decreases |s|
  {
    if |s| == 0 then 0
    else 10 * ParseDigits(s[..|s| - 1]) + DigitValue(s[|s| - 1])
  }

  lemma {:induction false} ParseNatToString(n: nat)
    ensures ParseDigits(NatToString(n)) == n
    decreases n
  {
    if n >= 10 {
      var s := NatToString(n);
      assert s[..|s| - 1] == NatToString(n / 10);
      ParseNatToString(n / 10);
    }
  }

  /** `"\(i)"` for a Swift `Int`. */
  function IntToString(i: int): (s: string)
    ensures 1 <= |s|
    ensures s[0] == '-' <==> i < 0
  {
    if i < 0 then "-" + NatToString(-i) else NatToString(i)
  }

  /** Reads back what IntToString writes; None for anything else. */
  function ParseInt(s: string): Option<int> {
    if 2 <= |s| && s[0] == '-' && AllDigits(s[1..]) then Some(0 - ParseDigits(s[1..]) as int)
    else if 1 <= |s| && AllDigits(s) then Some(ParseDigits(s))
    else None
  }

  lemma ParseIntToString(i: int)
    ensures ParseInt(IntToString(i)) == Some(i)
  {
    var s := IntToString(i);
    if i < 0 {
      assert s[1..] == NatToString(-i);
      ParseNatToString(-i);
    } else {
      assert !IsDigit('-');
      ParseNatToString(i);
    }
  }

  lemma IntToStringInjective(a: int, b: int)
    ensures IntToString(a) == IntToString(b) <==> a == b
  {
    ParseIntToString(a);
    ParseIntToString(b);
  }

  /** Two strings that differ only in a middle part differ in that part. */
  lemma AffixInjective(p: string, x: string, y: string, q: string)
    ensures p + x + q == p + y + q <==> x == y
  {
    if p + x + q == p + y + q {
      assert |x| == |y|;
      assert x == (p + x + q)[|p|..|p| + |x|];
      assert y == (p + y + q)[|p|..|p| + |y|];
    }
  }
}

=== FILE: duration_timer.dfy ===
/**
  The stopwatch that measures a recording's length. Its two endpoints are
  independent optionals; the clock reading is passed in as `now`, and
  timestamps are opaque reals of which only the difference is used.
*/
module DurationTimer {
  import opened Wrappers

  datatype Timer = Timer(startTime: Option<real>, endTime: Option<real>)

  /** `duration`: elapsed time between the endpoints, present only when both are set. */
  function Duration(t: Timer): (d: Option<real>)
    ensures d.Some? <==> t.startTime.Some? && t.endTime.Some?
    ensures d.Some? ==> t.startTime.value + d.value == t.endTime.value
  {
    if t.startTime.Some? && t.endTime.Some? then Some(t.endTime.value - t.startTime.value) else None
  }

  /** A timer as created by `DurationTimer()`: neither endpoint set. */
  function NewTimer(): (t: Timer)
    ensures t.startTime.None? && t.endTime.None?
    ensures Duration(t).None?
  {
    Timer(None, None)
  }

  /** `start()`: overwrites the start and keeps a stale end, if any. */
  function Start(t: Timer, now: real): (r: Timer)
    ensures r.startTime == Some(now) && r.endTime == t.endTime
    ensures Duration(r).Some? <==> t.endTime.Some?
  {
    t.(startTime := Some(now))
  }

  /** `stop()`: overwrites the end and keeps the start, if any. */
  function Stop(t: Timer, now: real): (r: Timer)
    ensures r.endTime == Some(now) && r.startTime == t.startTime
    ensures Duration(r).Some? <==> t.startTime.Some?
    ensures t.startTime.Some? ==> Duration(r) == Some(now - t.startTime.value)
  {
    t.(endTime := Some(now))
  }

  lemma StopWithoutStart(t: Timer, now: real)
    requires t.startTime.None?
    ensures Duration(Stop(t, now)).None?
  {
  }

  lemma StartThenStopMeasures(t: Timer, a: real, b: real)
    ensures Duration(Stop(Start(t, a), b)) == Some(b - a)
  {
  }

  /**
    After a completed measurement a second `start()` still reports a
    duration before the next `stop()`, computed from the stale end.
  */
  lemma RestartReportsStaleDuration(t: Timer, a: real, b: real, c: real)
    ensures Duration(Start(Stop(Start(t, a), b), c)) == Some(b - c)
  {
  }
}

=== FILE: playback_support.dfy ===
/**
  Playback: the row-to-file lookup that starts playback, the pause,
  resume and completion flag transitions, and this file's own revision of
  the naming alert. The audio engine and player node are outside the
  model; completion is an ordinary event.
*/
module PlaybackSupport {
  import opened Wrappers
  import opened RecordingsDatabase
  import opened ControllerState
  import RecordingSupport

  /**
    The file `startPlayback(index:)` opens: the entry's own file name. The
    source indexes the list directly, so the index must be in range.
  */
  function PlaybackFileName(recs: seq<Recording>, index: int): (f: string)
    requires 0 <= index < |recs|
    ensures exists e :: e in recs && e.fileName == f
    ensures DistinctFileNames(recs) ==>
              forall j :: 0 <= j < |recs| && recs[j].fileName == f ==> j == index
  {
    recs[index].fileName
  }

  /** `resumePlayback`: un-pauses, leaving `isPlaying` alone. */
  function ResumePlayback(a: App): (r: App)
    ensures !r.isPaused && r.isPlaying == a.isPlaying
    ensures r.(isPaused := a.isPaused) == a
  {
    a.(isPaused := false)
  }

  /** `pausePlayback`: pauses, leaving `isPlaying` alone. */
  function PausePlayback(a: App): (r: App)
    ensures r.isPaused && r.isPlaying == a.isPlaying
    ensures r.(isPaused := a.isPaused) == a
  {
    a.(isPaused := true)
  }

  /** `finishPlayback`, run when the scheduled file completes: both flags cleared. */
  function FinishPlayback(a: App): (r: App)
    ensures !r.isPlaying && !r.isPaused
    ensures r.(isPlaying := a.isPlaying, isPaused := a.isPaused) == a
  {
    a.(isPaused := false, isPlaying := false)
  }

  /** Completion overrides any pause or resume that came before it. */
  lemma FinishFromAnyState(a: App)
    ensures FinishPlayback(PausePlayback(a)) == FinishPlayback(a)
    ensures FinishPlayback(ResumePlayback(a)) == FinishPlayback(a)
    ensures FinishPlayback(FinishPlayback(a)) == FinishPlayback(a)
  {
  }

  /** Pausing and resuming undo each other. */
  lemma PauseResumeRoundTrip(a: App)
    ensures !a.isPaused ==> ResumePlayback(PausePlayback(a)) == a
    ensures a.isPaused ==> PausePlayback(ResumePlayback(a)) == a
  {
  }

  // ---------------------------------------------------------------------
  // This file's revision of the naming alert

  /** Presents the alert; unlike the recording flow's revision, leaves enablement alone. */
  function NameRecording(a: App): (r: App)
    ensures r.namingPrompt == Some(RecordingSupport.Placeholder(a.db.absoluteCount))
    ensures r.(namingPrompt := a.namingPrompt) == a
  {
    a.(namingPrompt := Some(RecordingSupport.Placeholder(a.db.absoluteCount)))
  }

  /** Submit: as in the recording flow, then recomputes enablement before the reload. */
  function SubmitName(a: App, text: string): (r: App)
    requires a.namingPrompt.Some?
    ensures r.newRecording.None? && r.namingPrompt.None? && r.selectedRow.None?
    ensures r.controlsEnabled <==> !a.isRecording && a.selectedRow.Some?
    ensures a.newRecording.None? ==> r.db == a.db
    ensures a.newRecording.Some? ==>
              r.db == AddRecording(a.db, a.newRecording.value.(name := RecordingSupport.EnteredName(text, a.namingPrompt.value)))
    ensures r.(db := a.db, newRecording := a.newRecording, namingPrompt := a.namingPrompt,
               selectedRow := a.selectedRow, controlsEnabled := a.controlsEnabled) == a
  {
    var named := match a.newRecording
      case Some(d) => a.(db := AddRecording(a.db, d.(name := RecordingSupport.EnteredName(text, a.namingPrompt.value))))
      case None => a;
    ReloadTable(ConfigurePlaySettings(named.(newRecording := None, namingPrompt := None)))
  }

  /** Cancel: identical to the recording flow's revision. */
  function CancelNaming(a: App): (r: App)
    requires a.namingPrompt.Some? && a.newRecording.Some?
    ensures r.newRecording.None? && r.namingPrompt.None? && r.db == a.db
    ensures r.(newRecording := a.newRecording, namingPrompt := a.namingPrompt) == a
  {
    a.(newRecording := None, namingPrompt := None)
  }

  /**
    The two revisions of naming agree on everything but button
    enablement: the same placeholder, the same catalog after submit or
    cancel, the same cleared draft.
  */
  lemma NamingRevisionsAgree(a: App, text: string)
    ensures NameRecording(a).namingPrompt == RecordingSupport.NameRecording(a).namingPrompt
    ensures var p := NameRecording(a);
            var q := RecordingSupport.NameRecording(a);
            SubmitName(p, text).(controlsEnabled := false) == RecordingSupport.SubmitName(q, text).(controlsEnabled := false)
    ensures a.namingPrompt.Some? && a.newRecording.Some? ==> CancelNaming(a) == RecordingSupport.CancelNaming(a)
  {
  }
}

=== FILE: recording_support.dfy ===
/**
  The recording flow: starting a capture creates a draft whose file name
  comes from the catalog's counter; stopping either discards the draft
  (failure) or stamps its duration and presents the naming alert; the
  alert ends in submit (the draft is added under the entered name or the
  placeholder) or cancel (the draft is dropped). The audio recorder, the
  audio session and file deletion are outside the model: the recorder is
  represented only by whether it exists.
*/
module RecordingSupport {
  import opened Wrappers
  import opened Decimal
  import opened DurationTimer
  import opened RecordingsDatabase
  import opened ControllerState

  /** `"recording\(absCount).m4a"`. */
  function FileName(count: int): (f: string)
    ensures |f| >= 14 && f[..9] == "recording" && f[|f| - 4..] == ".m4a"
    ensures ParseInt(f[9..|f| - 4]) == Some(count)
  {
    assert ("recording" + IntToString(count) + ".m4a")[9..|"recording" + IntToString(count) + ".m4a"| - 4]
           == IntToString(count);
    ParseIntToString(count);
    "recording" + IntToString(count) + ".m4a"
  }

  /** `"Recording #\(absCount + 1)"`. */
  function Placeholder(count: int): (p: string)
    ensures |p| > 11 && p[..11] == "Recording #"
    ensures ParseInt(p[11..]) == Some(count + 1)
  {
    assert ("Recording #" + IntToString(count + 1))[11..] == IntToString(count + 1);
    ParseIntToString(count + 1);
    "Recording #" + IntToString(count + 1)
  }

  lemma FileNameInjective(a: int, b: int)
    ensures FileName(a) == FileName(b) <==> a == b
  {
    AffixInjective("recording", IntToString(a), IntToString(b), ".m4a");
    IntToStringInjective(a, b);
  }

  /** No entry uses a file name the counter has yet to hand out. */
  ghost predicate NoFutureNames(recs: seq<Recording>, count: int) {
    forall i, k :: 0 <= i < |recs| && count <= k ==> recs[i].fileName != FileName(k)
  }

  /**
    What makes file names unique: entries are pairwise distinct, none
    collides with a name still to come, and the draft holds exactly the
    next name.
  */
  ghost predicate FileNamesFresh(a: App) {
    && DistinctFileNames(a.db.recordings)
    && NoFutureNames(a.db.recordings, a.db.absoluteCount)
    && (a.newRecording.Some? ==> a.newRecording.value.fileName == FileName(a.db.absoluteCount))
  }

  /**
    `startRecording`: starts the stopwatch and creates the draft named
    "name" with time 0 and the next file name. Creating the recorder is
    taken to succeed: on failure the source calls `stopRecording` on a nil
    recorder, which traps.
  */
  function StartRecording(a: App, now: real): (r: App)
    ensures r.newRecording == Some(Recording("name", 0.0, FileName(a.db.absoluteCount)))
    ensures r.recorderActive
    ensures r.stopTimer.startTime == Some(now) && r.stopTimer.endTime == a.stopTimer.endTime
    ensures r.db == a.db && r.namingPrompt == a.namingPrompt && r.isRecording == a.isRecording
    ensures r.isPlaying == a.isPlaying && r.isPaused == a.isPaused && r.selectedRow == a.selectedRow
    ensures r.controlsEnabled == a.controlsEnabled
    ensures r.(stopTimer := a.stopTimer, newRecording := a.newRecording, recorderActive := a.recorderActive) == a
  {
    a.(stopTimer := Start(a.stopTimer, now),
       newRecording := Some(Recording("name", 0.0, FileName(a.db.absoluteCount))),
       recorderActive := true)
  }

  /**
    `stopRecording(success:)`: releases the recorder and stops the
    stopwatch. On failure the draft is discarded; on success its time
    becomes the measured duration, when there is one, and the naming alert
    is presented.
  */
  function StopRecording(a: App, success: bool, now: real): (r: App)
    requires a.recorderActive
    ensures !r.recorderActive && r.stopTimer.endTime == Some(now)
    ensures r.db == a.db && r.isRecording == a.isRecording && r.isPlaying == a.isPlaying
    ensures !success ==> r.newRecording.None? && r.namingPrompt == a.namingPrompt
    ensures success ==> r.namingPrompt == Some(Placeholder(a.db.absoluteCount))
    ensures success ==> (r.newRecording.Some? <==> a.newRecording.Some?)
    ensures success && a.newRecording.Some? ==>
              var d := a.newRecording.value;
              var measured := Duration(Stop(a.stopTimer, now));
              r.newRecording.value == d.(time := if measured.Some? then measured.value else d.time)
    ensures success && a.stopTimer.startTime.Some? && a.newRecording.Some? ==>
              a.stopTimer.startTime.value + r.newRecording.value.time == now
    ensures r.stopTimer == Stop(a.stopTimer, now)
    ensures !success ==> r.controlsEnabled == a.controlsEnabled
    ensures success ==> (r.controlsEnabled <==> !a.isRecording && a.selectedRow.Some?)
    ensures r.(recorderActive := a.recorderActive, stopTimer := a.stopTimer, newRecording := a.newRecording,
               namingPrompt := a.namingPrompt, controlsEnabled := a.controlsEnabled) == a
  {
    var stopped := ReleaseRecorder(a, now);
    if !success then stopped.(newRecording := None) else NameRecording(StampDraft(stopped))
  }

  /** The recorder is released and the stopwatch stopped; nothing else changes. */
  function ReleaseRecorder(a: App, now: real): (r: App)
    ensures !r.recorderActive && r.stopTimer == Stop(a.stopTimer, now)
    ensures r.(recorderActive := a.recorderActive, stopTimer := a.stopTimer) == a
  {
    a.(recorderActive := false, stopTimer := Stop(a.stopTimer, now))
  }

  /** The draft, if any, takes the stopwatch's duration, if there is one. */
  function StampDraft(a: App): (r: App)
    ensures r.newRecording.Some? <==> a.newRecording.Some?
    ensures a.newRecording.Some? ==>
              var measured := Duration(a.stopTimer);
              r.newRecording.value == a.newRecording.value.(time := if measured.Some? then measured.value else a.newRecording.value.time)
    ensures r.(newRecording := a.newRecording) == a
  {
    match (a.newRecording, Duration(a.stopTimer))
    case (Some(d), Some(t)) => a.(newRecording := Some(d.(time := t)))
    case _ => a
  }

  /**
    `nameRecording`: presents the alert with the placeholder for the next
    entry, then recomputes the buttons' enablement.
  */
  function NameRecording(a: App): (r: App)
    ensures r.namingPrompt == Some(Placeholder(a.db.absoluteCount))
    ensures r.controlsEnabled <==> !a.isRecording && a.selectedRow.Some?
    ensures r.(namingPrompt := a.namingPrompt, controlsEnabled := a.controlsEnabled) == a
  {
    ConfigurePlaySettings(a.(namingPrompt := Some(Placeholder(a.db.absoluteCount))))
  }

  /**
    The recorder delegate's finish callback: nothing on success; on
    failure the same as a failed stop.
  */
  function AudioRecorderDidFinishRecording(a: App, flag: bool, now: real): (r: App)
    requires !flag ==> a.recorderActive
    ensures flag ==> r == a
    ensures !flag ==> r == StopRecording(a, false, now)
    ensures !flag ==> r.newRecording.None? && r.db == a.db && !r.recorderActive
  {
    if flag then a else StopRecording(a, false, now)
  }

  /** The name the submit action assigns: the entered text, or the placeholder when empty. */
  function EnteredName(text: string, placeholder: string): (name: string)
    ensures |text| == 0 ==> name == placeholder
    ensures |text| > 0 ==> name == text
  {
    if |text| == 0 then placeholder else text
  }

  /**
    The alert's submit action: names the draft, adds it to the catalog,
    clears it, and reloads the table. With no draft nothing is added.
  */
  function SubmitName(a: App, text: string): (r: App)
    requires a.namingPrompt.Some?
    ensures r.newRecording.None? && r.namingPrompt.None? && r.selectedRow.None?
    ensures a.newRecording.None? ==> r.db == a.db
    ensures a.newRecording.Some? ==>
              var d := a.newRecording.value;
              && r.db == AddRecording(a.db, d.(name := EnteredName(text, a.namingPrompt.value)))
              && |r.db.recordings| == |a.db.recordings| + 1
              && r.db.recordings[|a.db.recordings|].fileName == d.fileName
              && r.db.recordings[|a.db.recordings|].time == d.time
              && r.db.absoluteCount == a.db.absoluteCount + 1
    ensures r.isRecording == a.isRecording && r.isPlaying == a.isPlaying && r.recorderActive == a.recorderActive
    ensures r.controlsEnabled == a.controlsEnabled
    ensures r.(db := a.db, newRecording := a.newRecording, namingPrompt := a.namingPrompt,
               selectedRow := a.selectedRow) == a
  {
    var named := match a.newRecording
      case Some(d) => a.(db := AddRecording(a.db, d.(name := EnteredName(text, a.namingPrompt.value))))
      case None => a;
    ReloadTable(named.(newRecording := None, namingPrompt := None))
  }

  /**
    The alert's cancel action: the draft's file is deleted (outside the
    model) and the draft dropped; the catalog is untouched. The source
    force-unwraps the draft, so one must exist.
  */
  function CancelNaming(a: App): (r: App)
    requires a.namingPrompt.Some? && a.newRecording.Some?
    ensures r.newRecording.None? && r.namingPrompt.None?
    ensures r.db == a.db && r.selectedRow == a.selectedRow && r.controlsEnabled == a.controlsEnabled
    ensures r.isRecording == a.isRecording && r.isPlaying == a.isPlaying
    ensures r.(newRecording := a.newRecording, namingPrompt := a.namingPrompt) == a
  {
    a.(newRecording := None, namingPrompt := None)
  }

  // ---------------------------------------------------------------------
  // File-name freshness across the flow

  lemma StartKeepsFresh(a: App, now: real)
    requires FileNamesFresh(a)
    ensures FileNamesFresh(StartRecording(a, now))
  {
  }

  lemma StopKeepsFresh(a: App, success: bool, now: real)
    requires a.recorderActive && FileNamesFresh(a)
    ensures FileNamesFresh(StopRecording(a, success, now))
  {
  }

  /**
    Committing the draft: its name is the counter's current name, which no
    entry has, and the counter then moves past it.
  */
  lemma SubmitKeepsFresh(a: App, text: string)
    requires a.namingPrompt.Some? && FileNamesFresh(a)
    ensures FileNamesFresh(SubmitName(a, text))
  {
    if a.newRecording.Some? {
      var n := a.db.absoluteCount;
      var r := SubmitName(a, text);
      var recs := r.db.recordings;
      forall k | n + 1 <= k
        ensures FileName(n) != FileName(k)
      {
        FileNameInjective(n, k);
      }
      forall i, j | 0 <= i < j < |recs|
        ensures recs[i].fileName != recs[j].fileName
      {
        if j == |a.db.recordings| {
          assert recs[i] == a.db.recordings[i];
        }
      }
    }
  }

  lemma CancelKeepsFresh(a: App)
    requires a.namingPrompt.Some? && a.newRecording.Some? && FileNamesFresh(a)
    ensures FileNamesFresh(CancelNaming(a))
  {
  }

  /** An empty submission names the entry after the count of entries ever added plus one. */
  lemma EmptySubmissionUsesPlaceholder(a: App)
    requires a.namingPrompt == Some(Placeholder(a.db.absoluteCount)) && a.newRecording.Some?
    ensures var r := SubmitName(a, "");
            r.db.recordings[|a.db.recordings|].name == "Recording #" + IntToString(a.db.absoluteCount + 1)
  {
  }
}

=== FILE: recordings_database.dfy ===
/**
  The recordings catalog: an ordered list of recordings plus a counter of
  recordings ever added, both mirrored into a key-value store (the
  platform's user defaults) on every mutation and read back from it at
  launch. The store is a map from keys to a small property-list `Value`;
  the database value carries its store so that each operation states
  what it saves.
*/
module RecordingsDatabase {
  import opened Wrappers

  /** One catalog entry. Only `name` and `time` are ever reassigned. */
  datatype Recording = Recording(name: string, time: real, fileName: string)

  /** What a stored property-list object can be, as far as decoding cares. */
  datatype Value =
    | Str(s: string)
    | Dbl(d: real)
    | Int(i: int)
    | List(items: seq<Value>)
    | Dict(fields: map<string, Value>)
    | Other

  type Store = map<string, Value>

  const RecordingKey: string := "recordings.key"
  const AbsCountKey: string := "abs.count.key"

  datatype Database = Database(recordings: seq<Recording>, absoluteCount: int, store: Store)

  /** Both catalog parts read back from the store exactly as held in memory. */
  predicate Persisted(db: Database) {
    && LoadSavedRecordings(db.store) == db.recordings
    && LoadAbsoluteCount(db.store) == db.absoluteCount
  }

  predicate DistinctFileNames(recs: seq<Recording>) {
    forall i, j :: 0 <= i < j < |recs| ==> recs[i].fileName != recs[j].fileName
  }

  // ---------------------------------------------------------------------
  // Accessors

  function CountRecordings(db: Database): (n: nat)
    ensures n == |GetRecordings(db)|
  {
    |db.recordings|
  }

  /** `getRecordings`: the in-memory list itself, not a filtered or reordered copy. */
  function GetRecordings(db: Database): (recs: seq<Recording>)
    ensures recs == db.recordings
  {
    db.recordings
  }

  /** `absCount`: the counter of recordings ever added. */
  function AbsCount(db: Database): (n: int)
    ensures n == db.absoluteCount
  {
    db.absoluteCount
  }

  // ---------------------------------------------------------------------
  // Mutations

  /** Appends, bumps the counter, and saves both list and counter. */
  function AddRecording(db: Database, rec: Recording): (r: Database)
    ensures |r.recordings| == |db.recordings| + 1
    ensures r.recordings[|db.recordings|] == rec
    ensures forall i :: 0 <= i < |db.recordings| ==> r.recordings[i] == db.recordings[i]
    ensures r.absoluteCount == db.absoluteCount + 1
    ensures Persisted(r)
    ensures forall k :: k in db.store && k != RecordingKey && k != AbsCountKey ==>
              k in r.store && r.store[k] == db.store[k]
  {
    var appended := db.(recordings := db.recordings + [rec], absoluteCount := db.absoluteCount + 1);
    var saved := appended.(store := SaveRecordings(appended));
    saved.(store := SaveAbsoluteCount(saved))
  }

  /**
    Deletes entry `index` and saves the list, but only when
    `0 < index < count`: the guard refuses index 0, so the first entry can
    never be deleted. Any other index leaves everything unchanged.
  */
  function RemoveRecording(db: Database, index: int): (r: Database)
    ensures 0 < index < |db.recordings| ==>
              && |r.recordings| == |db.recordings| - 1
              && (forall j :: 0 <= j < index ==> r.recordings[j] == db.recordings[j])
              && (forall j :: index <= j < |r.recordings| ==> r.recordings[j] == db.recordings[j + 1])
              && multiset(r.recordings) + multiset{db.recordings[index]} == multiset(db.recordings)
    ensures !(0 < index < |db.recordings|) ==> r == db
    ensures r.absoluteCount == db.absoluteCount
    ensures Persisted(db) ==> Persisted(r)
    ensures DistinctFileNames(db.recordings) ==> DistinctFileNames(r.recordings)
    ensures forall k :: k in db.store && k != RecordingKey ==> k in r.store && r.store[k] == db.store[k]
  {
    if 0 < index < |db.recordings| then
      RemoveAtFacts(db.recordings, index);
      var removed := db.(recordings := RemoveAt(db.recordings, index));
      removed.(store := SaveRecordings(removed))
    else
      db
  }

  /** Swift's `remove(at:)` on an array. */
  function RemoveAt<T>(s: seq<T>, index: nat): (r: seq<T>)
    requires index < |s|
    ensures |r| == |s| - 1
    ensures forall j :: 0 <= j < index ==> r[j] == s[j]
    ensures forall j :: index <= j < |r| ==> r[j] == s[j + 1]
  {
    s[..index] + s[index + 1..]
  }

  lemma RemoveAtFacts(recs: seq<Recording>, index: nat)
    requires index < |recs|
    ensures multiset(RemoveAt(recs, index)) + multiset{recs[index]} == multiset(recs)
    ensures DistinctFileNames(recs) ==> DistinctFileNames(RemoveAt(recs, index))
  {
    var r := RemoveAt(recs, index);
    assert recs == recs[..index] + [recs[index]] + recs[index + 1..];
    if DistinctFileNames(recs) {
      forall i, j | 0 <= i < j < |r|
        ensures r[i].fileName != r[j].fileName
      {
        var i' := if i < index then i else i + 1;
        var j' := if j < index then j else j + 1;
        assert r[i] == recs[i'] && r[j] == recs[j'];
      }
    }
  }

  // ---------------------------------------------------------------------
  // Persistence

  /** The dictionary `saveRecordings` writes for one entry. */
  function EncodeRecording(rec: Recording): (v: Value)
    ensures v.Dict?
    ensures DecodeRecording(v) == Some(rec)
  {
    Dict(map["name" := Str(rec.name), "time" := Dbl(rec.time), "fileName" := Str(rec.fileName)])
  }

  /** The array of dictionaries `saveRecordings` builds: one per entry, in list order. */
  function EncodeList(recs: seq<Recording>): (vs: seq<Value>)
    ensures |vs| == |recs| && AllDicts(vs)
    ensures forall i :: 0 <= i < |vs| ==> DecodeRecording(vs[i]) == Some(recs[i])
  {
    seq(|recs|, i requires 0 <= i < |recs| => EncodeRecording(recs[i]))
  }

  /** `saveRecordings`: the store with the list written under its key. */
  function SaveRecordings(db: Database): (s: Store)
    ensures LoadSavedRecordings(s) == db.recordings
    ensures forall k :: k in db.store && k != RecordingKey ==> k in s && s[k] == db.store[k]
  {
    DecodeEncode(db.recordings);
    db.store[RecordingKey := List(EncodeList(db.recordings))]
  }

  /** `saveAbsoluteCount`: the store with the counter written under its key. */
  function SaveAbsoluteCount(db: Database): (s: Store)
    ensures LoadAbsoluteCount(s) == db.absoluteCount
    ensures forall k :: k in db.store && k != AbsCountKey ==> k in s && s[k] == db.store[k]
  {
    db.store[AbsCountKey := Int(db.absoluteCount)]
  }

  /**
    One dictionary of the stored list: an entry when "name" is a string,
    "time" a double and "fileName" a string, nothing otherwise.
  */
  function DecodeRecording(v: Value): (r: Option<Recording>)
    ensures r.Some? ==> && v.Dict?
                         && "name" in v.fields && v.fields["name"] == Str(r.value.name)
                         && "time" in v.fields && v.fields["time"] == Dbl(r.value.time)
                         && "fileName" in v.fields && v.fields["fileName"] == Str(r.value.fileName)
    ensures && v.Dict?
            && "name" in v.fields && v.fields["name"].Str?
            && "time" in v.fields && v.fields["time"].Dbl?
            && "fileName" in v.fields && v.fields["fileName"].Str?
            ==> r.Some?
  {
    if v.Dict? && "name" in v.fields && v.fields["name"].Str?
       && "time" in v.fields && v.fields["time"].Dbl?
       && "fileName" in v.fields && v.fields["fileName"].Str?
    then Some(Recording(v.fields["name"].s, v.fields["time"].d, v.fields["fileName"].s))
    else None
  }

  /** The decoding loop: well-formed dictionaries in order, the rest skipped. */
  function DecodeEntries(vs: seq<Value>): (r: seq<Recording>)
    ensures |r| <= |vs|
    ensures (forall i :: 0 <= i < |vs| ==> DecodeRecording(vs[i]).Some?) ==>
              |r| == |vs| && forall i :: 0 <= i < |r| ==> Some(r[i]) == DecodeRecording(vs[i])
    ensures (forall i :: 0 <= i < |vs| ==> DecodeRecording(vs[i]).None?) ==> r == []
    decreases |vs|
  {
    if |vs| == 0 then [] else DecodeOne(vs[0]) + DecodeEntries(vs[1..])
  }

  /** One iteration of the decoding loop: the entry, if the dictionary is well formed. */
  function DecodeOne(v: Value): (r: seq<Recording>)
    ensures |r| <= 1
    ensures |r| == 0 <==> DecodeRecording(v).None?
    ensures |r| == 1 ==> DecodeRecording(v) == Some(r[0])
  {
    match DecodeRecording(v)
    case Some(rec) => [rec]
    case None => []
  }

  predicate AllDicts(vs: seq<Value>) {
    forall i :: 0 <= i < |vs| ==> vs[i].Dict?
  }

  /**
    `loadSavedRecordings`. A missing key, a non-list value, or a list with
    any element that is not a dictionary (the array cast to
    `[[String:AnyObject]]` then fails as a whole) all load as the empty list.
  */
  function LoadSavedRecordings(store: Store): (r: seq<Recording>)
    ensures RecordingKey !in store ==> r == []
    ensures RecordingKey in store && !store[RecordingKey].List? ==> r == []
    ensures RecordingKey in store && store[RecordingKey].List? && !AllDicts(store[RecordingKey].items) ==> r == []
    ensures RecordingKey in store && store[RecordingKey].List? && AllDicts(store[RecordingKey].items) ==>
              r == DecodeEntries(store[RecordingKey].items)
  {
    if RecordingKey in store && store[RecordingKey].List? && AllDicts(store[RecordingKey].items)
    then DecodeEntries(store[RecordingKey].items)
    else []
  }

  /** Conversion of a double to an integer, truncating toward zero. */
  function TruncateToInt(d: real): (n: int)
    ensures 0.0 <= d ==> n as real <= d < n as real + 1.0
    ensures d < 0.0 ==> n as real - 1.0 < d <= n as real
  {
    if 0.0 <= d then d.Floor else -((-d).Floor)
  }

  /** `integer(forKey:)`: 0 unless an integer (or a truncated double) is stored. */
  function LoadAbsoluteCount(store: Store): (n: int)
    ensures AbsCountKey !in store ==> n == 0
    ensures AbsCountKey in store && store[AbsCountKey].Int? ==> n == store[AbsCountKey].i
    ensures AbsCountKey in store && store[AbsCountKey].Dbl? ==> n == TruncateToInt(store[AbsCountKey].d)
    ensures AbsCountKey in store && !store[AbsCountKey].Int? && !store[AbsCountKey].Dbl? ==> n == 0
  {
    if AbsCountKey !in store then 0
    else match store[AbsCountKey]
      case Int(i) => i
      case Dbl(d) => TruncateToInt(d)
      case _ => 0
  }

  /** The two globals as initialised at launch from the store. */
  function Load(store: Store): (db: Database)
    ensures Persisted(db) && db.store == store
  {
    Database(LoadSavedRecordings(store), LoadAbsoluteCount(store), store)
  }

  // ---------------------------------------------------------------------
  // Properties

  /**
    Decoding the saved dictionaries gives back the list, in order: every
    saved dictionary decodes, so DecodeEntries keeps them all.
  */
  lemma DecodeEncode(recs: seq<Recording>)
    ensures AllDicts(EncodeList(recs))
    ensures DecodeEntries(EncodeList(recs)) == recs
  {
  }

  /** Decoding distributes over concatenation: filtering keeps relative order. */
  lemma {:induction false} DecodeEntriesAppend(a: seq<Value>, b: seq<Value>)
    ensures DecodeEntries(a + b) == DecodeEntries(a) + DecodeEntries(b)
    decreases |a|
  {
    if |a| > 0 {
      assert (a + b)[0] == a[0] && (a + b)[1..] == a[1..] + b;
      var x, p, q := DecodeOne(a[0]), DecodeEntries(a[1..]), DecodeEntries(b);
      DecodeEntriesCons(a + b);
      DecodeEntriesAppend(a[1..], b);
      assert DecodeEntries(a + b) == x + (p + q);
      DecodeEntriesCons(a);
      assert x + (p + q) == (x + p) + q;
    } else {
      assert a + b == b;
    }
  }

  /** One unfolding of the decoding loop. */
  lemma DecodeEntriesCons(vs: seq<Value>)
    requires |vs| > 0
    ensures DecodeEntries(vs) == DecodeOne(vs[0]) + DecodeEntries(vs[1..])
  {
  }

  /** A relaunch from the store of a persisted catalog restores it exactly. */
  lemma ReloadRestores(db: Database)
    requires Persisted(db)
    ensures Load(db.store) == db
  {
  }

  /** One call a client can make on the catalog. */
  datatype Call = Add(rec: Recording) | Remove(index: int)

  function Apply(db: Database, c: Call): Database {
    match c
    case Add(rec) => AddRecording(db, rec)
    case Remove(index) => RemoveRecording(db, index)
  }

  function Replay(db: Database, calls: seq<Call>): Database
    decreases |calls|
  {
    if |calls| == 0 then db else Replay(Apply(db, calls[0]), calls[1..])
  }

  function AddCount(calls: seq<Call>): nat
    decreases |calls|
  {
    if |calls| == 0 then 0 else (if calls[0].Add? then 1 else 0) + AddCount(calls[1..])
  }

  /** The counter grows by exactly the number of adds, whatever was removed. */
  lemma {:induction false} ReplayCounter(db: Database, calls: seq<Call>)
    ensures Replay(db, calls).absoluteCount == db.absoluteCount + AddCount(calls)
    ensures Replay(db, calls).absoluteCount >= db.absoluteCount
    decreases |calls|
  {
    if |calls| > 0 {
      ReplayCounter(Apply(db, calls[0]), calls[1..]);
    }
  }

  /** Every state reached by adds and removes from a persisted one is persisted. */
  lemma {:induction false} ReplayPersisted(db: Database, calls: seq<Call>)
    requires Persisted(db)
    ensures Persisted(Replay(db, calls))
    decreases |calls|
  {
    if |calls| > 0 {
      ReplayPersisted(Apply(db, calls[0]), calls[1..]);
    }
  }
}

=== FILE: view_controller.dfy ===
/**
  The recording screen's button handlers and the sequences of user and
  framework events they respond to. The recording flow used by the
  record/stop handler is the one in the recording-support extension and
  playback is the one in the playback-support extension; the view
  controller's own older revision of the recording flow is kept apart as
  `Legacy*` and compared with it.
*/
module ViewController {
  import opened Wrappers
  import opened Decimal
  import opened DurationTimer
  import opened RecordingsDatabase
  import opened ControllerState
  import opened RecordingSupport
  import opened PlaybackSupport

  // ---------------------------------------------------------------------
  // Button handlers

  /**
    `recordStopButtonPressed`: flips `isRecording`, running the stop path
    (successful stop, then naming) or the start path, then recomputes
    enablement. Playback is not stopped. Stopping needs a live recorder:
    the source calls `stop()` on an implicitly unwrapped optional.
  */
  function RecordStopPressed(a: App, now: real): (r: App)
    requires a.isRecording ==> a.recorderActive
    ensures r.isRecording == !a.isRecording
    ensures r.controlsEnabled <==> !r.isRecording && r.selectedRow.Some?
    ensures r.isRecording ==> !r.controlsEnabled
    ensures a.isRecording ==> r.db == a.db && !r.recorderActive && r.namingPrompt == Some(Placeholder(a.db.absoluteCount))
    ensures !a.isRecording ==> r.recorderActive && r.db == a.db
    ensures !a.isRecording ==> r.newRecording == Some(Recording("name", 0.0, FileName(a.db.absoluteCount)))
    ensures r.isPlaying == a.isPlaying && r.isPaused == a.isPaused && r.selectedRow == a.selectedRow
    ensures r.playerFile == a.playerFile
    ensures a.isRecording ==> r.stopTimer == Stop(a.stopTimer, now)
    ensures a.isRecording ==>
              r.newRecording == if a.newRecording.Some? && a.stopTimer.startTime.Some?
                                then Some(a.newRecording.value.(time := now - a.stopTimer.startTime.value))
                                else a.newRecording
    ensures !a.isRecording ==> r.stopTimer == Start(a.stopTimer, now)
    ensures !a.isRecording ==> r.namingPrompt == a.namingPrompt
  {
    if a.isRecording then PressToStop(a, now) else PressToStart(a, now)
  }

  /** The stop branch of `recordStopButtonPressed`: a successful stop, then enablement. */
  function PressToStop(a: App, now: real): (r: App)
    requires a.recorderActive
    ensures !r.isRecording && !r.recorderActive && r.db == a.db
    ensures r.namingPrompt == Some(Placeholder(a.db.absoluteCount))
    ensures r.controlsEnabled <==> r.selectedRow.Some?
    ensures r.stopTimer == Stop(a.stopTimer, now)
    ensures r.newRecording == if a.newRecording.Some? && a.stopTimer.startTime.Some?
                              then Some(a.newRecording.value.(time := now - a.stopTimer.startTime.value))
                              else a.newRecording
    ensures r.isPlaying == a.isPlaying && r.isPaused == a.isPaused && r.selectedRow == a.selectedRow
    ensures r.playerFile == a.playerFile
  {
    ConfigurePlaySettings(StopRecording(a.(isRecording := false), true, now))
  }

  /** The start branch of `recordStopButtonPressed`: a new draft, then enablement. */
  function PressToStart(a: App, now: real): (r: App)
    ensures r.isRecording && r.recorderActive && r.db == a.db && !r.controlsEnabled
    ensures r.newRecording == Some(Recording("name", 0.0, FileName(a.db.absoluteCount)))
    ensures r.stopTimer == Start(a.stopTimer, now)
    ensures r.isPlaying == a.isPlaying && r.isPaused == a.isPaused && r.selectedRow == a.selectedRow
    ensures r.playerFile == a.playerFile && r.namingPrompt == a.namingPrompt
  {
    ConfigurePlaySettings(StartRecording(a.(isRecording := true), now))
  }

  /**
    `playPauseButtonPressed`: ignored while the button is disabled; while
    playing, clears `isPlaying`; otherwise starts the selected row, if any.
    Starting indexes the catalog with the selected row, so that row must
    exist; a disabled or playing button never reads it.
  */
  function PlayPausePressed(a: App): (r: App)
    requires a.controlsEnabled && !a.isPlaying && a.selectedRow.Some? ==>
               0 <= a.selectedRow.value < |a.db.recordings|
    ensures !a.controlsEnabled ==> r == a
    ensures a.controlsEnabled && a.isPlaying ==> r == a.(isPlaying := false)
    ensures a.controlsEnabled && !a.isPlaying && a.selectedRow.None? ==> r == a
    ensures a.controlsEnabled && !a.isPlaying && a.selectedRow.Some? ==>
              && r.isPlaying
              && r.playerFile == Some(a.db.recordings[a.selectedRow.value].fileName)
              && r.(isPlaying := a.isPlaying, playerFile := a.playerFile) == a
  {
    if !a.controlsEnabled then a
    else if a.isPlaying then a.(isPlaying := false)
    else match a.selectedRow
      case Some(row) => a.(playerFile := Some(PlaybackFileName(a.db.recordings, row)), isPlaying := true)
      case None => a
  }

  /**
    `deleteButtonPressed`: ignored while the button is disabled or nothing
    is selected; otherwise hands the selected row to `removeRecording`
    and reloads the table. Row 0 is refused by the catalog's guard.
  */
  function DeletePressed(a: App): (r: App)
    ensures !a.controlsEnabled || a.selectedRow.None? ==> r == a
    ensures a.controlsEnabled && a.selectedRow.Some? ==>
              r == ReloadTable(a.(db := RemoveRecording(a.db, a.selectedRow.value)))
    ensures r.db.absoluteCount == a.db.absoluteCount
    ensures |a.db.recordings| > 0 ==> |r.db.recordings| > 0 && r.db.recordings[0] == a.db.recordings[0]
    ensures |a.db.recordings| - 1 <= |r.db.recordings| <= |a.db.recordings|
  {
    if !a.controlsEnabled then a
    else match a.selectedRow
      case Some(row) => ReloadTable(a.(db := RemoveRecording(a.db, row)))
      case None => a
  }

  /** `didSelectRowAt`: the table only offers existing rows. */
  function SelectRow(a: App, row: int): (r: App)
    requires 0 <= row < |a.db.recordings|
    ensures r.selectedRow == Some(row)
    ensures r.controlsEnabled <==> !a.isRecording
    ensures r.(selectedRow := a.selectedRow, controlsEnabled := a.controlsEnabled) == a
  {
    ConfigurePlaySettings(a.(selectedRow := Some(row)))
  }

  // ---------------------------------------------------------------------
  // The controller's older revision of the recording flow

  /** This revision's placeholder: `"Recording #\(count)"`, the current number of entries. */
  function LegacyPlaceholder(count: int): (p: string)
    ensures |p| > 11 && p[..11] == "Recording #"
    ensures ParseInt(p[11..]) == Some(count)
  {
    assert ("Recording #" + IntToString(count))[11..] == IntToString(count);
    ParseIntToString(count);
    "Recording #" + IntToString(count)
  }

  /** This revision's `nameRecording`: presents the alert, no enablement update. */
  function LegacyNameRecording(a: App): (r: App)
    ensures r.namingPrompt == Some(LegacyPlaceholder(|a.db.recordings|))
    ensures r.(namingPrompt := a.namingPrompt) == a
  {
    a.(namingPrompt := Some(LegacyPlaceholder(|a.db.recordings|)))
  }

  /** This revision's `stopRecording`: `success` is ignored and naming always follows. */
  function LegacyStopRecording(a: App, success: bool, now: real): (r: App)
    requires a.recorderActive
    ensures !r.recorderActive && r.db == a.db
    ensures r.namingPrompt == Some(LegacyPlaceholder(|a.db.recordings|))
    ensures r.newRecording.Some? <==> a.newRecording.Some?
    ensures r.newRecording == if a.newRecording.Some? && a.stopTimer.startTime.Some?
                              then Some(a.newRecording.value.(time := now - a.stopTimer.startTime.value))
                              else a.newRecording
    ensures r.newRecording == StopRecording(a, true, now).newRecording
    ensures r.stopTimer == Stop(a.stopTimer, now)
    ensures r.(recorderActive := a.recorderActive, stopTimer := a.stopTimer,
               newRecording := a.newRecording, namingPrompt := a.namingPrompt) == a
  {
    var stopped := a.(recorderActive := false, stopTimer := Stop(a.stopTimer, now));
    var timed :=
      match (stopped.newRecording, Duration(stopped.stopTimer))
      case (Some(d), Some(t)) => stopped.(newRecording := Some(d.(time := t)))
      case _ => stopped;
    LegacyNameRecording(timed)
  }

  /**
    Where the revisions part: a failed stop keeps the draft and asks for a
    name in the older one, and discards the draft in the current one.
  */
  lemma LegacyStopIgnoresFailure(a: App, now: real)
    requires a.recorderActive && a.newRecording.Some?
    ensures LegacyStopRecording(a, false, now) == LegacyStopRecording(a, true, now)
    ensures LegacyStopRecording(a, false, now).newRecording.Some?
    ensures StopRecording(a, false, now).newRecording.None?
  {
  }

  /**
    The placeholders agree only when the number of entries is one more
    than the number ever added.
  */
  lemma LegacyPlaceholderDiffers(count: int, absCount: int)
    ensures LegacyPlaceholder(count) == Placeholder(absCount) <==> count == absCount + 1
  {
    AffixInjective("Recording #", IntToString(count), IntToString(absCount + 1), "");
    assert "Recording #" + IntToString(count) + "" == LegacyPlaceholder(count);
    assert "Recording #" + IntToString(absCount + 1) + "" == Placeholder(absCount);
    IntToStringInjective(count, absCount + 1);
  }

  // ---------------------------------------------------------------------
  // Event sequences

  /** What can happen to the screen: button presses, alert actions, framework callbacks. */
  datatype Event =
    | RecordStop(now: real)
    | PlayPause
    | Delete
    | Select(row: int)
    | RecorderFinished(flag: bool, now: real)
    | Submit(text: string)
    | Cancel
    | Pause
    | Resume
    | PlaybackCompleted

  /**
    The state after one event, or None when the source would trap
    (unwrapping a nil recorder or draft, indexing past the list) or the
    event cannot be offered (an alert action with no alert open, a row
    that does not exist). Cancelling an open alert with no draft traps.
  */
  function Step(a: App, e: Event): (r: Option<App>)
    ensures e.RecordStop? ==> (r.None? <==> a.isRecording && !a.recorderActive)
    ensures e.RecordStop? && r.Some? ==> r.value == RecordStopPressed(a, e.now)
    ensures e.PlayPause? ==>
              (r.None? <==> a.controlsEnabled && !a.isPlaying && a.selectedRow.Some?
                            && !(0 <= a.selectedRow.value < |a.db.recordings|))
    ensures e.PlayPause? && r.Some? ==> r.value == PlayPausePressed(a)
    ensures e.Delete? ==> r == Some(DeletePressed(a))
    ensures e.Select? ==> (r.None? <==> !(0 <= e.row < |a.db.recordings|))
    ensures e.Select? && r.Some? ==> r.value == SelectRow(a, e.row)
    ensures e.RecorderFinished? ==> (r.None? <==> !e.flag && !a.recorderActive)
    ensures e.RecorderFinished? && r.Some? ==> r.value == AudioRecorderDidFinishRecording(a, e.flag, e.now)
    ensures e.Submit? ==> (r.None? <==> a.namingPrompt.None?)
    ensures e.Submit? && r.Some? ==> r.value == RecordingSupport.SubmitName(a, e.text)
    ensures e.Cancel? ==> (r.None? <==> a.namingPrompt.None? || a.newRecording.None?)
    ensures e.Cancel? && r.Some? ==> r.value == RecordingSupport.CancelNaming(a)
    ensures e.Pause? ==> r == Some(PausePlayback(a))
    ensures e.Resume? ==> r == Some(ResumePlayback(a))
    ensures e.PlaybackCompleted? ==> r == Some(FinishPlayback(a))
  {
    match e
    case RecordStop(now) =>
      if a.isRecording && !a.recorderActive then None else Some(RecordStopPressed(a, now))
    case PlayPause =>
      if a.controlsEnabled && !a.isPlaying && a.selectedRow.Some?
         && !(0 <= a.selectedRow.value < |a.db.recordings|)
      then None
      else Some(PlayPausePressed(a))
    case Delete => Some(DeletePressed(a))
    case Select(row) =>
      if 0 <= row < |a.db.recordings| then Some(SelectRow(a, row)) else None
    case RecorderFinished(flag, now) =>
      if !flag && !a.recorderActive then None else Some(AudioRecorderDidFinishRecording(a, flag, now))
    case Submit(text) =>
      if a.namingPrompt.Some? then Some(RecordingSupport.SubmitName(a, text)) else None
    case Cancel =>
      if a.namingPrompt.Some? && a.newRecording.Some? then Some(RecordingSupport.CancelNaming(a)) else None
    case Pause => Some(PausePlayback(a))
    case Resume => Some(ResumePlayback(a))
    case PlaybackCompleted => Some(FinishPlayback(a))
  }

  /** The state after a sequence of events, None if one of them traps. */
  function Run(a: App, es: seq<Event>): Option<App>
    decreases |es|
  {
    if |es| == 0 then Some(a)
    else match Step(a, es[0])
      case None => None
      case Some(b) => Run(b, es[1..])
  }

  /**
    The invariant of every reachable screen: the store mirrors the catalog,
    file names are fresh, an open alert shows the next entry's placeholder,
    the selection is a real row, play and delete are off while recording,
    and a recorder exists only while recording.
  */
  ghost predicate WellFormed(a: App) {
    && Persisted(a.db)
    && FileNamesFresh(a)
    && (a.namingPrompt.Some? ==> a.namingPrompt.value == Placeholder(a.db.absoluteCount))
    && (a.selectedRow.Some? ==> 0 <= a.selectedRow.value < |a.db.recordings|)
    && (a.controlsEnabled ==> !a.isRecording)
    && (a.recorderActive ==> a.isRecording)
  }

  /** A fresh install, with no saved list, starts well formed. */
  lemma LaunchWellFormed(store: Store)
    requires LoadSavedRecordings(store) == []
    ensures WellFormed(Launch(store))
  {
  }

  lemma StepKeepsWellFormed(a: App, e: Event)
    requires WellFormed(a)
    ensures Step(a, e).Some? ==> WellFormed(Step(a, e).value)
    ensures e.PlayPause? || e.Delete? ==> Step(a, e).Some?
  {
    match e
    case RecordStop(now) =>
      if !(a.isRecording && !a.recorderActive) {
        PressKeepsWellFormed(a, now);
      }
    case PlayPause => PlayPauseKeepsWellFormed(a);
    case Delete => DeleteKeepsWellFormed(a);
    case Select(row) =>
      if 0 <= row < |a.db.recordings| {
        SelectKeepsWellFormed(a, row);
      }
    case RecorderFinished(flag, now) =>
      if flag || a.recorderActive {
        FinishKeepsWellFormed(a, flag, now);
      }
    case Submit(text) =>
      if a.namingPrompt.Some? {
        SubmitKeepsWellFormed(a, text);
      }
    case Cancel =>
    case Pause => PlaybackKeepsWellFormed(a);
    case Resume => PlaybackKeepsWellFormed(a);
    case PlaybackCompleted => PlaybackKeepsWellFormed(a);
  }

  lemma PressKeepsWellFormed(a: App, now: real)
    requires WellFormed(a) && (a.isRecording ==> a.recorderActive)
    ensures WellFormed(RecordStopPressed(a, now))
  {
    if a.isRecording {
      StopKeepsFresh(a.(isRecording := false), true, now);
    } else {
      StartKeepsFresh(a.(isRecording := true), now);
    }
  }

  lemma PlayPauseKeepsWellFormed(a: App)
    requires WellFormed(a)
    ensures a.controlsEnabled && !a.isPlaying && a.selectedRow.Some? ==>
              0 <= a.selectedRow.value < |a.db.recordings|
    ensures WellFormed(PlayPausePressed(a))
  {
  }

  lemma DeleteKeepsWellFormed(a: App)
    requires WellFormed(a)
    ensures WellFormed(DeletePressed(a))
  {
  }

  lemma SelectKeepsWellFormed(a: App, row: int)
    requires WellFormed(a) && 0 <= row < |a.db.recordings|
    ensures WellFormed(SelectRow(a, row))
  {
  }

  lemma FinishKeepsWellFormed(a: App, flag: bool, now: real)
    requires WellFormed(a) && (flag || a.recorderActive)
    ensures WellFormed(AudioRecorderDidFinishRecording(a, flag, now))
  {
    if !flag {
      StopKeepsFresh(a, false, now);
    }
  }

  lemma SubmitKeepsWellFormed(a: App, text: string)
    requires WellFormed(a) && a.namingPrompt.Some?
    ensures WellFormed(RecordingSupport.SubmitName(a, text))
  {
    SubmitKeepsFresh(a, text);
  }

  lemma PlaybackKeepsWellFormed(a: App)
    requires WellFormed(a)
    ensures WellFormed(PausePlayback(a)) && WellFormed(ResumePlayback(a)) && WellFormed(FinishPlayback(a))
  {
  }

  lemma {:induction false} RunKeepsWellFormed(a: App, es: seq<Event>)
    requires WellFormed(a)
    ensures Run(a, es).Some? ==> WellFormed(Run(a, es).value)
    decreases |es|
  {
    if |es| > 0 {
      StepKeepsWellFormed(a, es[0]);
      if Step(a, es[0]).Some? {
        RunKeepsWellFormed(Step(a, es[0]).value, es[1..]);
      }
    }
  }

  /**
    From a fresh install, whatever is recorded, named, cancelled or
    deleted, no two catalog entries ever share a file name.
  */
  lemma FileNamesStayUnique(store: Store, es: seq<Event>)
    requires LoadSavedRecordings(store) == []
    ensures Run(Launch(store), es).Some? ==> DistinctFileNames(Run(Launch(store), es).value.db.recordings)
  {
    LaunchWellFormed(store);
    RunKeepsWellFormed(Launch(store), es);
  }

  lemma StepCounterMonotone(a: App, e: Event)
    ensures Step(a, e).Some? ==> Step(a, e).value.db.absoluteCount >= a.db.absoluteCount
  {
  }

  /** The counter never goes down, through any events. */
  lemma {:induction false} RunCounterMonotone(a: App, es: seq<Event>)
    ensures Run(a, es).Some? ==> Run(a, es).value.db.absoluteCount >= a.db.absoluteCount
    decreases |es|
  {
    if |es| > 0 {
      StepCounterMonotone(a, es[0]);
      if Step(a, es[0]).Some? {
        RunCounterMonotone(Step(a, es[0]).value, es[1..]);
      }
    }
  }

  /**
    Record, stop, then submit an empty name: exactly one entry is added at
    the end, carrying the placeholder name, the counter's file name and
    the measured time, and the counter moves on by one.
  */
  lemma RecordAndSubmitEmpty(a: App, t0: real, t1: real)
    requires !a.isRecording
    ensures Run(a, [RecordStop(t0), RecordStop(t1), Submit("")]).Some?
    ensures var b := Run(a, [RecordStop(t0), RecordStop(t1), Submit("")]).value;
            && |b.db.recordings| == |a.db.recordings| + 1
            && b.db.recordings[..|a.db.recordings|] == a.db.recordings
            && b.db.recordings[|a.db.recordings|]
               == Recording("Recording #" + IntToString(a.db.absoluteCount + 1), t1 - t0, FileName(a.db.absoluteCount))
            && b.db.absoluteCount == a.db.absoluteCount + 1
            && b.newRecording.None? && !b.isRecording
  {
    var s2 := RecordStopPressed(RecordStopPressed(a, t0), t1);
    RecordThenStopDraft(a, t0, t1);
    SubmitAppendsDraft(s2, "");
    RecordStopSubmitRuns(a, t0, t1);
  }

  /** Record, stop and submit each apply their handler, none of them trapping. */
  lemma RecordStopSubmitRuns(a: App, t0: real, t1: real)
    requires !a.isRecording
    ensures Run(a, [RecordStop(t0), RecordStop(t1), Submit("")])
            == Some(RecordingSupport.SubmitName(RecordStopPressed(RecordStopPressed(a, t0), t1), ""))
  {
    var s1 := RecordStopPressed(a, t0);
    var s2 := RecordStopPressed(s1, t1);
    RunFirst(a, RecordStop(t0), [RecordStop(t1), Submit("")]);
    RunFirst(s1, RecordStop(t1), [Submit("")]);
    RunFirst(s2, Submit(""), []);
  }

  /**
    Submitting at the naming alert appends the draft, named as entered, at
    the end of the catalog and moves the counter on by one.
  */
  lemma SubmitAppendsDraft(s: App, text: string)
    requires s.namingPrompt.Some? && s.newRecording.Some?
    ensures var r := RecordingSupport.SubmitName(s, text);
            && |r.db.recordings| == |s.db.recordings| + 1
            && r.db.recordings[..|s.db.recordings|] == s.db.recordings
            && r.db.recordings[|s.db.recordings|]
               == s.newRecording.value.(name := EnteredName(text, s.namingPrompt.value))
            && r.db.absoluteCount == s.db.absoluteCount + 1
            && r.newRecording.None? && r.isRecording == s.isRecording
  {
    var r := RecordingSupport.SubmitName(s, text);
    assert r.db.recordings[..|s.db.recordings|] == s.db.recordings;
  }

  /** Record then stop: the alert is open over the measured draft. */
  lemma RecordThenStopDraft(a: App, t0: real, t1: real)
    requires !a.isRecording
    ensures var s2 := RecordStopPressed(RecordStopPressed(a, t0), t1);
            && s2.db == a.db && !s2.isRecording
            && s2.namingPrompt == Some(Placeholder(a.db.absoluteCount))
            && s2.newRecording == Some(Recording("name", t1 - t0, FileName(a.db.absoluteCount)))
  {
    StopPressStampsDraft(RecordStopPressed(a, t0), t0, t1, Recording("name", 0.0, FileName(a.db.absoluteCount)));
  }

  /**
    A stop press while recording opens the naming alert over the draft,
    stamped with the time since the stopwatch started.
  */
  lemma StopPressStampsDraft(s: App, t0: real, t1: real, d: Recording)
    requires s.isRecording && s.recorderActive
    requires s.newRecording == Some(d) && s.stopTimer.startTime == Some(t0)
    ensures var r := RecordStopPressed(s, t1);
            && r.db == s.db && !r.isRecording
            && r.namingPrompt == Some(Placeholder(s.db.absoluteCount))
            && r.newRecording == Some(d.(time := t1 - t0))
  {
  }

  /** A run whose first event does not trap continues from that event's state. */
  lemma RunFirst(a: App, e: Event, es: seq<Event>)
    ensures Run(a, [e] + es) == if Step(a, e).Some? then Run(Step(a, e).value, es) else None
  {
    assert ([e] + es)[0] == e && ([e] + es)[1..] == es;
  }

  /**
    Record, then a failed finish from the recorder: the draft is gone and
    the catalog and counter are as before.
  */
  lemma RecordThenFailure(a: App, t0: real, t1: real)
    requires WellFormed(a) && !a.isRecording
    ensures Run(a, [RecordStop(t0), RecorderFinished(false, t1)]).Some?
    ensures var b := Run(a, [RecordStop(t0), RecorderFinished(false, t1)]).value;
            b.db == a.db && b.newRecording.None? && !b.recorderActive
  {
    var s1 := RecordStopPressed(a, t0);
    var s2 := AudioRecorderDidFinishRecording(s1, false, t1);
    assert Step(a, RecordStop(t0)) == Some(s1);
    assert Step(s1, RecorderFinished(false, t1)) == Some(s2);
    var es := [RecordStop(t0), RecorderFinished(false, t1)];
    assert es[1..][1..] == [];
    assert Run(s2, es[1..][1..]) == Some(s2);
    assert Run(s1, es[1..]) == Some(s2);
  }

  /**
    A failed finish from the recorder leaves `isRecording` set with no
    recorder, so the next record/stop press unwraps a nil recorder and
    traps.
  */
  lemma FailedFinishThenPressTraps(a: App, t0: real, t1: real, t2: real)
    requires WellFormed(a) && !a.isRecording
    ensures Run(a, [RecordStop(t0), RecorderFinished(false, t1), RecordStop(t2)]).None?
  {
    var s1 := RecordStopPressed(a, t0);
    var s2 := AudioRecorderDidFinishRecording(s1, false, t1);
    assert s2.isRecording && !s2.recorderActive;
    assert Step(a, RecordStop(t0)) == Some(s1);
    assert Step(s1, RecorderFinished(false, t1)) == Some(s2);
    var es := [RecordStop(t0), RecorderFinished(false, t1), RecordStop(t2)];
    assert es[1..][1..][0] == RecordStop(t2);
    assert Run(s2, es[1..][1..]).None?;
    assert Run(s1, es[1..]).None?;
  }

  // ---------------------------------------------------------------------
  // Across launches

  /**
    Relaunching the app from the store of a well-formed screen gives a
    well-formed screen over the same catalog and counter.
  */
  lemma RelaunchWellFormed(a: App)
    requires WellFormed(a)
    ensures Launch(a.db.store).db == a.db
    ensures WellFormed(Launch(a.db.store))
  {
    ReloadRestores(a.db);
  }

  /**
    Several lifetimes of the app: each runs its events, then the process
    ends and the next launch reloads the catalog from the store.
  */
  function Sessions(a: App, ss: seq<seq<Event>>): Option<App>
    decreases |ss|
  {
    if |ss| == 0 then Some(a)
    else match Run(a, ss[0])
      case None => None
      case Some(b) => Sessions(Launch(b.db.store), ss[1..])
  }

  lemma {:induction false} SessionsKeepWellFormed(a: App, ss: seq<seq<Event>>)
    requires WellFormed(a)
    ensures Sessions(a, ss).Some? ==> WellFormed(Sessions(a, ss).value)
    decreases |ss|
  {
    if |ss| > 0 {
      RunKeepsWellFormed(a, ss[0]);
      if Run(a, ss[0]).Some? {
        RelaunchWellFormed(Run(a, ss[0]).value);
        SessionsKeepWellFormed(Launch(Run(a, ss[0]).value.db.store), ss[1..]);
      }
    }
  }

  /**
    From a fresh install, through any number of relaunches and any events
    in the current lifetime, no two catalog entries share a file name.
  */
  lemma FileNamesStayUniqueAcrossLaunches(store: Store, ss: seq<seq<Event>>, es: seq<Event>)
    requires LoadSavedRecordings(store) == []
    ensures Sessions(Launch(store), ss).Some? && Run(Sessions(Launch(store), ss).value, es).Some? ==>
              DistinctFileNames(Run(Sessions(Launch(store), ss).value, es).value.db.recordings)
  {
    LaunchWellFormed(store);
    SessionsKeepWellFormed(Launch(store), ss);
    if Sessions(Launch(store), ss).Some? {
      RunKeepsWellFormed(Sessions(Launch(store), ss).value, es);
    }
  }
}

=== FILE: wrappers.dfy ===
/** Optional values, the Dafny counterpart of Swift's `T?`. */
module Wrappers {

  datatype Option<+T> = None | Some(value: T)
}
